=== FILE: README.md ===
# Boston crime dashboard: the list logic behind the views

The dashboard (`AJW_Final_Project.py`) loads a table of 2021 Boston crime
incidents and a table of police districts, then draws one of several views.
Most of the script is widget and chart calls. Inside it sits a small amount
of plain list logic, and that logic is modelled here as pure functions over
sequences of rows and strings:

- **Offense labels.** Each OFFENSE_DESCRIPTION is normalised with
  `lower().title().strip()`. A label is appended to the list only when it is
  not listed yet (`Offenses`, `Normalizer`).
- **Map layers.** Rows without coordinates are dropped. The remaining rows are
  split into one layer per label, in label order. A drop-down with a blank
  first entry picks which layers are drawn (`MapView`).
- **Hour filter.** The rows whose HOUR lies in the slider's inclusive range
  are kept, and their distinct labels are listed (`HourView`).
- **Incidents per district.** The district table is sorted by name and rows
  with a missing cell are dropped. Each district's incident count is then
  looked up in `value_counts()` of the DISTRICT column (`Districts`, `Sorting`).
- **Pie of incidents per district.** District names are zipped with per-code
  counts. Either every pair is shown ("All"), or one value per chosen name is
  looked up (`PieView`).

The tables are inputs (`Tables`): a missing cell is `None`, so a NaN
coordinate, hour, code or name is explicit. Widget values (the drop-down
selection, the slider range, the multiselect) are parameters. A KeyError the
script would raise is a `Failure` result (`Wrappers`). Generic sequence
operations live in `Seqs`: boolean-mask selection, first positions, and the
split by key.

Three behaviours of the script are easy to misread, and the model states
them as the code has them:

- The bar chart and the pie's "All" view agree only when the tables line up.
  The bar chart joins counts to districts by code. The pie pairs the
  unsorted "District Name" column with per-code counts by position.
  `PieView.PieAllMatchesBarChart` states the alignment under which the two
  agree: a complete district table, sorted by name, with counts in row order.
- District rows with a missing code or name are dropped by `dropna`
  (AJW_Final_Project.py:25), and the list comprehension at :106 visits only
  the remaining rows. For one of those rows whose code never occurs among the
  incidents, `value_counts()[code]` raises KeyError. The model returns that
  error (`Districts.CountsFor`, `Districts.DistrictCounts`).
- The hour filter does not check `lo <= hi` or that both lie in 0..23; the
  slider guarantees it. `HourView.HourWindow` takes any range.

## Model

| member | source | states |
|---|---|---|
| Normalizer.Strip | AJW_Final_Project.py:54 | the result is a slice of the input with only whitespace cut before and after it; it neither starts nor ends with whitespace |
| Normalizer.StripCut | AJW_Final_Project.py:54 | `strip()` keeps one slice of its input, which starts at the beginning or right after whitespace |
| Normalizer.Normalize | AJW_Final_Project.py:54 | a label is no longer than its description and neither starts nor ends with whitespace |
| Normalizer.TitleAfterLower | AJW_Final_Project.py:54 | calling `lower()` before `title()` changes nothing `title()` would produce |
| Normalizer.NormalizedIsTitled | AJW_Final_Project.py:54 | a normalised label is its own title-cased form, because stripping only cuts at word boundaries |
| Normalizer.NormalizeIdempotent | AJW_Final_Project.py:54 | normalising an already normalised label returns it unchanged |
| Normalizer.NormalizeTrailingBlank | AJW_Final_Project.py:54 | "theft " is filed under "Theft" |
| Normalizer.NormalizeUpperCase | AJW_Final_Project.py:54 | "THEFT" is filed under "Theft" |
| Offenses.FirstSeen | AJW_Final_Project.py:52-55 | the append-if-absent list has no duplicates, and holds exactly the elements of the input |
| Offenses.FirstSeenOrder | AJW_Final_Project.py:53-55 | elements are listed in the order of their first occurrence in the input |
| Offenses.FirstSeenOrderIff | AJW_Final_Project.py:53-55 | a is listed before b exactly when a first occurs before b in the input |
| Offenses.FirstSeenRepeats | AJW_Final_Project.py:53-55 | repeats of a listed element add nothing: [a, a, b, a] gives [a, b] |
| Offenses.FirstSeenSnoc | AJW_Final_Project.py:53-55 | one more element is appended at the end exactly when it is not listed yet |
| Offenses.RowLabels | AJW_Final_Project.py:52-55 | a string is a label of a table's descriptions exactly when some row's description normalises to it |
| Offenses.OffenseLabels | AJW_Final_Project.py:52-55 | the labels have no duplicates, and a string is listed exactly when it is the normalised form of some description |
| Offenses.CollectOffenseLabels | AJW_Final_Project.py:159-162 | the normalise-and-append loop yields the first-seen list of labels, with no duplicates and exactly the labels of the descriptions |
| MapView.Located | AJW_Final_Project.py:46-47 | a row reaches the map exactly when it has both coordinates |
| MapView.MapLabels | AJW_Final_Project.py:52-55 | the map's labels are distinct, and they cover the label of every row of the table, located or not |
| MapView.Layers | AJW_Final_Project.py:57-60 | one layer per label; layer k holds exactly the located rows whose label is label k |
| MapView.LayerIsSelection | AJW_Final_Project.py:57-60 | for any label list, layer k is the selection of the located rows whose label is label k, in table order |
| MapView.LayerContents | AJW_Final_Project.py:46-60 | layer k holds exactly the located rows with label k, each as often as it occurs in the table |
| MapView.LayersCover | AJW_Final_Project.py:46-60 | for any distinct labels that cover every located row, the layer sizes add up to the number of rows with coordinates |
| MapView.LayersCoverLocated | AJW_Final_Project.py:46-60 | the map's own labels make the layer sizes add up to the number of rows with coordinates |
| MapView.DrawnUpTo | AJW_Final_Project.py:88-101 | every map drawn belongs to a drop-down entry equal to the selection: all layers for entry 0, layer i-1 for entry i |
| MapView.Matching | AJW_Final_Project.py:88-101 | the positions of the drop-down entries equal to the selection: exactly those entries, in increasing order |
| MapView.DrawnUpToMatching | AJW_Final_Project.py:88-101 | walking the first n entries draws the maps of the matching entries among them, one each, in entry order |
| MapView.MapsDrawn | AJW_Final_Project.py:88-101 | map k is the map of the k-th drop-down entry equal to the selection (all layers for the blank entry, layer i-1 for entry i), one per matching entry and no others; nothing is drawn for a selection that is not an entry |
| MapView.OnlyMatchDrawn | AJW_Final_Project.py:88-101 | when only entry i equals the selection, exactly one map is drawn, the one for entry i |
| MapView.SelectBlank | AJW_Final_Project.py:72-94 | with no blank label, selecting the blank entry draws one map holding every layer |
| MapView.SelectLabel | AJW_Final_Project.py:88-99 | with distinct labels, selecting non-blank label i-1 draws one map holding only layer i-1 |
| MapView.BlankLabelDrawsTwice | AJW_Final_Project.py:72-101 | a blank label duplicates the blank entry, and selecting it draws two maps: all layers, then the blank label's layer |
| MapView.BlankDescriptionExample | AJW_Final_Project.py:52-101 | a whitespace-only description yields the label "", and the blank selection then draws two maps |
| MapView.MapShown | AJW_Final_Project.py:72-99 | corrected selection: one map exactly when the selection is a drop-down entry, and every layer for the blank entry |
| MapView.MapShownByEntry | AJW_Final_Project.py:72-99 | with distinct non-blank labels, entry i shows the map for i, and the script draws that one map |
| HourView.HourWindow | AJW_Final_Project.py:157 | a row is kept exactly when it has an hour within [lo, hi] |
| HourView.HourWindowCounts | AJW_Final_Project.py:157 | each row in range is kept as often as it occurs, and every other row is dropped |
| HourView.HourWindowOrder | AJW_Final_Project.py:157 | the filter keeps table order: it distributes over concatenation |
| HourView.WholeDay | AJW_Final_Project.py:153-157 | with hours in 0..23, the default range [0, 23] keeps every row that has an hour |
| HourView.WholeDayKeepsAll | AJW_Final_Project.py:153-157 | with every hour recorded and in 0..23, the range [0, 23] keeps the whole table |
| HourView.SingleHour | AJW_Final_Project.py:157 | the range [h, h] keeps exactly the rows of hour h |
| HourView.TimesOffenses | AJW_Final_Project.py:157-162 | the listed labels are distinct, and a label is listed exactly when some row in the range carries it |
| HourView.WiderRangeKeepsLabels | AJW_Final_Project.py:153-162 | widening the range never removes a label from the list |
| Sorting.SortBy | AJW_Final_Project.py:24 | the result is ordered by key under Python's string order, and is a permutation of the input |
| Sorting.SortBySorted | AJW_Final_Project.py:181 | sorting a list that is already sorted leaves it unchanged |
| Districts.CompleteRegions | AJW_Final_Project.py:25-27 | one (code, name) pair per district row with no missing cell, and exactly those pairs |
| Districts.CompleteRegionsCounts | AJW_Final_Project.py:25-27 | each pair occurs exactly as often as the complete district row it comes from |
| Districts.CompleteTable | AJW_Final_Project.py:25-27 | a table with no missing cell gives its own rows, pair i from row i |
| Districts.RegionsTuple | AJW_Final_Project.py:23-28 | the pairs are ascending by name, and are a permutation of the complete rows' pairs |
| Districts.IncidentCount | AJW_Final_Project.py:106 | the count is positive exactly when some incident is recorded under the code, and never exceeds the number of incidents |
| Districts.CountsFor | AJW_Final_Project.py:106 | succeeds exactly when every code occurs among the incidents; then one (name, count) per region, in order; otherwise the KeyError names the first code that never occurs |
| Districts.Codes | AJW_Final_Project.py:106 | the codes of the regions, position by position |
| Districts.RegionsCodesOccur | AJW_Final_Project.py:23-28 | every code of `regions_tuple` occurs among the incidents exactly when every complete district row's code does |
| Districts.BarsFromRows | AJW_Final_Project.py:106 | every bar computed over `regions_tuple` is a complete district row's name with the incidents under that row's code |
| Districts.RowsHaveBars | AJW_Final_Project.py:106 | every complete district row's name, with the incidents under its code, is among the bars of a successful count over `regions_tuple` |
| Districts.DistrictCounts | AJW_Final_Project.py:106 | succeeds exactly when every complete district row's code occurs among the incidents; then one bar per complete row, in ascending name order, each bar a complete row's name with the incidents under its code and every complete row's bar present |
| Districts.SortedTableCounts | AJW_Final_Project.py:23-28 | for a complete table already sorted by name, bar i is row i's name and the incidents under row i's code |
| Districts.CountsForTotal | AJW_Final_Project.py:106 | with distinct codes, the counts add up to the incidents recorded in a listed district; other codes such as "External" are excluded |
| Districts.DistrictTotal | AJW_Final_Project.py:106 | the bar-chart counts add up to the incidents whose code is in the district table |
| PieView.ValuesWhere | AJW_Final_Project.py:196-198 | the inner loop appends nothing for an absent name, and for a name present once it appends exactly the value at its position |
| PieView.LookupEachExact | AJW_Final_Project.py:194-198 | when every chosen name occurs once among the keys, each chosen name yields exactly one value, in selection order |
| PieView.Choices | AJW_Final_Project.py:181-182 | the multiselect offers "All" first, then every district name once per occurrence, in sorted order |
| PieView.PieChart | AJW_Final_Project.py:176-200 | with "All" the pie is the zipped names and counts, both cut to the shorter length; otherwise its names are the chosen names, and a chosen name that occurs once gets the count at its index in sorted(names) |
| PieView.SelectedValues | AJW_Final_Project.py:194-198 | as written, a chosen name that occurs once among the names gets the value at its index in sorted(names) |
| PieView.SortSwapsPair | AJW_Final_Project.py:181 | `sorted` of two names out of order returns them swapped |
| PieView.UnsortedNamesMislabel | AJW_Final_Project.py:176-200 | any two names listed out of order (say ["B", "A"] counted [1, 2]): choosing the second shows the first one's count as written, and its own count when corrected |
| PieView.PieChartCorrected | AJW_Final_Project.py:176-200 | corrected pie: the "All" branch is unchanged; otherwise each chosen name that occurs once gets its own zipped count |
| PieView.PairedValues | AJW_Final_Project.py:176-179 | corrected, a chosen name that occurs once among the names gets the count zipped with it |
| PieView.SortedNamesAgree | AJW_Final_Project.py:181-198 | when the names are already sorted, the as-written lookup equals the corrected one |
| PieView.PieAllShowsEveryPair | AJW_Final_Project.py:189-190 | with "All" chosen and columns of equal length, the pie shows every (name, count) pair |
| PieView.PieAllMatchesBarChart | AJW_Final_Project.py:176-190 | "All" reproduces the bar chart's names and counts when the district table is complete, sorted by name, and the counts follow its row order |

## Findings

| source | as written | input that shows it | evidently intended | confidence | as-written member | corrected member |
|---|---|---|---|---|---|---|
| AJW_Final_Project.py:194-198 | the value for a chosen district is `vals[i]`, where i is the name's position in `sorted(names)`; `vals` follows the unsorted name column | names ["B", "A"], counts [1, 2], chosen ["A"]: the slice for "A" gets 1 | the count zipped with the chosen name | medium (the district table's row order is not known); not executed | PieView.UnsortedNamesMislabel | PieView.PieChartCorrected |
| AJW_Final_Project.py:88-101 | every drop-down entry equal to the selection draws a map | a whitespace-only description "  " gives the label "", so the options are ["", ""]; the default blank selection draws two maps | one map for every drop-down entry: every layer for the blank entry | low (needs a whitespace-only description in the data); not executed | MapView.BlankLabelDrawsTwice | MapView.MapShown |

In each row the as-written behaviour belongs to the modelled script.
`PieView.PieChart` and `MapView.MapsDrawn` model that behaviour, and the
lemma in the as-written cell exhibits the input. The corrected definitions
carry the intended property. `PieView.PairedValues` gives each chosen name
its own count. `MapView.MapShown` yields exactly one map for every drop-down
entry. `MapView.MapShownByEntry` and `PieView.SortedNamesAgree` show that the
corrected and the as-written behaviour agree wherever the script is right.

## Left out

- Loading the CSV files and the logo image, and all Streamlit widgets and output calls, are input/output and user interface. The tables are inputs, and the widget values are parameters.
- The top-level dispatch between views (the select box and the radio buttons) is user-interface branching. Each view's data logic is modelled on its own.
- pydeck layers, the deck, the view state and the tooltip belong to a rendering library. A layer is modelled as the rows it plots.
- Random colours (`rd.randint`, `np.random.rand`) are nondeterministic and cosmetic.
- The histogram and the day-by-hour pivot table are left out. Their binning and fill rules live in matplotlib and pandas, which are not part of this model.
- The `groupby("DISTRICT").count()` and `drop(["External"])` calls are pandas internals. Their result is an input to `PieView.PieChart`: per-code counts, ordered by code, with "External" absent. The KeyError `drop` raises when no incident is "External" is not modelled.
- Normalizer.Normalize: models `lower`, `title`, `strip` and `isspace` for ASCII characters only. Any other character passes through unchanged, while Python would case-map it. A non-ASCII letter also counts as uncased, which changes how the letter after it is title-cased: "éa" gives "éA" in the model, while Python gives "Éa". Non-ASCII whitespace is not stripped.
- Tables.Incident: the description is always text. In the script, a NaN description would make `.lower()` raise.
- Districts.RegionsTuple: names that compare equal keep their table order. pandas' default sort leaves their order unspecified.
- Districts.CompleteRegions: `dropna` is modelled over the code and name columns only. Other columns of the district table are not modelled.
- PieView.PieChart: the name column is text. In the script, a NaN name would make `sorted(names)` raise.
- The bar and pie rendering (`ax.bar`, `px.pie`) is left out. Only the data handed to them is modelled.

=== FILE: districts.dfy ===
/**
 The "Locations" / "Amount per District" view: the district table sorted by
 name with incomplete rows dropped (`regions_tuple`), and one incident count
 per district looked up in `value_counts()` of the DISTRICT column.
 */
module Districts {
  import opened Wrappers
  import opened Seqs
  import opened Sorting
  import opened Tables

  /** A complete district row: its code and its name. */
  datatype Region = Region(code: string, name: string)

  function NameOf(r: Region): string { r.name }

  /** Neither the code nor the name is missing, so the row survives `dropna`. */
  predicate Complete(d: DistrictRow)
  {
    d.code.Some? && d.name.Some?
  }

  /** The complete rows of the district table as (code, name) pairs, in table order. */
  function CompleteRegions(districts: seq<DistrictRow>): (regions: seq<Region>)
    ensures |regions| == |Filter(districts, Complete)|
    ensures forall x :: x in regions <==> DistrictRow(Some(x.code), Some(x.name)) in districts
  {
    if districts == [] then []
    else
      assert districts == [districts[0]] + districts[1..];
      match districts[0]
      case DistrictRow(Some(code), Some(name)) => [Region(code, name)] + CompleteRegions(districts[1..])
      case _ => CompleteRegions(districts[1..])
  }

  /** Each pair occurs as often as the complete district row it comes from. */
  lemma {:induction false} CompleteRegionsCounts(districts: seq<DistrictRow>, x: Region)
    ensures multiset(CompleteRegions(districts))[x] == multiset(districts)[DistrictRow(Some(x.code), Some(x.name))]
  {
    if districts != [] {
      assert districts == [districts[0]] + districts[1..];
      CompleteRegionsCounts(districts[1..], x);
    }
  }

  /** The complete rows of a table with no missing cell are the table itself, row by row. */
  lemma {:induction false} CompleteTable(districts: seq<DistrictRow>)
    requires forall i :: 0 <= i < |districts| ==> Complete(districts[i])
    ensures |CompleteRegions(districts)| == |districts|
    ensures forall i :: 0 <= i < |districts| ==>
      CompleteRegions(districts)[i] == Region(districts[i].code.value, districts[i].name.value)
  {
    if districts != [] {
      var rest := districts[1..];
      assert forall i :: 0 <= i < |rest| ==> Complete(rest[i]) by {
        forall i | 0 <= i < |rest|
          ensures Complete(rest[i])
        {
          assert rest[i] == districts[i + 1];
        }
      }
      CompleteTable(rest);
      var d := districts[0];
      assert Complete(d);
      var regions := CompleteRegions(districts);
      assert regions == [Region(d.code.value, d.name.value)] + CompleteRegions(rest);
      forall i | 0 < i < |districts|
        ensures regions[i] == Region(districts[i].code.value, districts[i].name.value)
      {
        assert districts[i] == rest[i - 1];
      }
    }
  }

  /**
   `regions_tuple`: the (code, name) pairs of the complete district rows,
   ascending by name.
   */
  function RegionsTuple(districts: seq<DistrictRow>): (regions: seq<Region>)
    ensures SortedBy(regions, NameOf)
    ensures multiset(regions) == multiset(CompleteRegions(districts))
    ensures forall x :: x in regions <==> DistrictRow(Some(x.code), Some(x.name)) in districts
  {
    var regions := SortBy(CompleteRegions(districts), NameOf);
    assert forall x :: x in regions <==> x in CompleteRegions(districts) by {
      forall x
        ensures x in regions <==> x in CompleteRegions(districts)
      {
        assert x in regions <==> x in multiset(regions);
      }
    }
    regions
  }

  /** The incident is recorded in the district with this code. */
  predicate InDistrict(r: Incident, code: string)
  {
    r.district == Some(code)
  }

  /** `df_crime["DISTRICT"].value_counts()[code]` when the code occurs: the incidents recorded in it. */
  function IncidentCount(incidents: seq<Incident>, code: string): (n: nat)
    ensures n <= |incidents|
    ensures n > 0 <==> exists r :: r in incidents && InDistrict(r, code)
  {
    var found := Filter(incidents, r => InDistrict(r, code));
    assert |found| > 0 ==> found[0] in found;
    |found|
  }

  /** One bar of the chart: a district name and its number of incidents. */
  datatype DistrictCount = DistrictCount(name: string, count: nat)

  /** `value_counts()[code]` raises KeyError for a code with no incidents. */
  datatype LookupError = KeyError(code: string)

  /** Every region's code occurs among the incidents. */
  predicate AllCodesOccur(incidents: seq<Incident>, regions: seq<Region>)
  {
    forall i :: 0 <= i < |regions| ==> IncidentCount(incidents, regions[i].code) > 0
  }

  /**
   The list comprehension of the bar-chart view over the given regions: one
   (name, count) pair per region in region order, or the KeyError raised by
   the first region whose code never occurs.
   */
  function CountsFor(incidents: seq<Incident>, regions: seq<Region>): (r: Result<seq<DistrictCount>, LookupError>)
    ensures r.Success? <==> AllCodesOccur(incidents, regions)
    ensures r.Success? ==> |r.value| == |regions|
    ensures r.Success? ==>
      forall i :: 0 <= i < |regions| ==> r.value[i].name == regions[i].name && r.value[i].count == IncidentCount(incidents, regions[i].code)
    ensures r.Failure? ==>
      exists i :: (0 <= i < |regions| && r.error == KeyError(regions[i].code)
        && IncidentCount(incidents, regions[i].code) == 0
        && AllCodesOccur(incidents, regions[..i]))
  {
    if regions == [] then Success([])
    else
      var n := IncidentCount(incidents, regions[0].code);
      if n == 0 then
        assert AllCodesOccur(incidents, regions[..0]);
        Failure(KeyError(regions[0].code))
      else
        match CountsFor(incidents, regions[1..])
        case Failure(e) =>
          assert forall k :: 0 < k <= |regions| ==> regions[1..][..k - 1] == regions[..k][1..];
          Failure(e)
        case Success(rest) =>
          Success([DistrictCount(regions[0].name, n)] + rest)
  }

  /**
   Every complete district row's code occurs among the incidents exactly when
   every code of `regions_tuple` does.
   */
  lemma RegionsCodesOccur(incidents: seq<Incident>, districts: seq<DistrictRow>)
    ensures AllCodesOccur(incidents, RegionsTuple(districts))
      <==> forall d :: d in districts && Complete(d) ==> IncidentCount(incidents, d.code.value) > 0
  {
    var regions := RegionsTuple(districts);
    if AllCodesOccur(incidents, regions) {
      forall d | d in districts && Complete(d)
        ensures IncidentCount(incidents, d.code.value) > 0
      {
        var x := Region(d.code.value, d.name.value);
        assert DistrictRow(Some(x.code), Some(x.name)) == d;
        var i :| 0 <= i < |regions| && regions[i] == x;
      }
    }
    if forall d :: d in districts && Complete(d) ==> IncidentCount(incidents, d.code.value) > 0 {
      forall i | 0 <= i < |regions|
        ensures IncidentCount(incidents, regions[i].code) > 0
      {
        var x := regions[i];
        assert x in regions;
        assert Complete(DistrictRow(Some(x.code), Some(x.name)));
      }
    }
  }

  /** Every bar of a successful count over `regions_tuple` is a complete district row's name and its code's count. */
  lemma BarsFromRows(incidents: seq<Incident>, districts: seq<DistrictRow>)
    ensures CountsFor(incidents, RegionsTuple(districts)).Success? ==>
      forall i :: 0 <= i < |CountsFor(incidents, RegionsTuple(districts)).value| ==>
        exists d :: (d in districts && Complete(d)
          && CountsFor(incidents, RegionsTuple(districts)).value[i] == DistrictCount(d.name.value, IncidentCount(incidents, d.code.value)))
  {
    var regions := RegionsTuple(districts);
    var r := CountsFor(incidents, regions);
    if r.Success? {
      forall i | 0 <= i < |r.value|
        ensures exists d :: (d in districts && Complete(d)
          && r.value[i] == DistrictCount(d.name.value, IncidentCount(incidents, d.code.value)))
      {
        var x := regions[i];
        assert x in regions;
        var d := DistrictRow(Some(x.code), Some(x.name));
        assert d in districts && Complete(d);
        assert r.value[i] == DistrictCount(d.name.value, IncidentCount(incidents, d.code.value));
      }
    }
  }

  /** Conversely, every complete district row has its bar in a successful count over regions_tuple. */
  lemma RowsHaveBars(incidents: seq<Incident>, districts: seq<DistrictRow>)
    ensures CountsFor(incidents, RegionsTuple(districts)).Success? ==>
      forall d :: d in districts && Complete(d) ==>
        DistrictCount(d.name.value, IncidentCount(incidents, d.code.value)) in CountsFor(incidents, RegionsTuple(districts)).value
  {
    var regions := RegionsTuple(districts);
    var r := CountsFor(incidents, regions);
    if r.Success? {
      forall d | d in districts && Complete(d)
        ensures DistrictCount(d.name.value, IncidentCount(incidents, d.code.value)) in r.value
      {
        var x := Region(d.code.value, d.name.value);
        assert DistrictRow(Some(x.code), Some(x.name)) == d;
        assert x in regions;
        var i :| 0 <= i < |regions| && regions[i] == x;
        assert r.value[i] == DistrictCount(d.name.value, IncidentCount(incidents, d.code.value));
      }
    }
  }

  /**
   The bar-chart data: one (name, count) pair per complete district row, in
   ascending name order; a KeyError when some complete row's code has no incidents.
   */
  function DistrictCounts(incidents: seq<Incident>, districts: seq<DistrictRow>): (r: Result<seq<DistrictCount>, LookupError>)
    ensures r.Success? <==> forall d :: d in districts && Complete(d) ==> IncidentCount(incidents, d.code.value) > 0
    ensures r.Success? ==> |r.value| == |Filter(districts, Complete)|
    ensures r.Success? ==> forall i, j :: 0 <= i < j < |r.value| ==> LexLe(r.value[i].name, r.value[j].name)
    ensures r.Success? ==> forall i :: 0 <= i < |r.value| ==>
      exists d :: d in districts && Complete(d) && r.value[i] == DistrictCount(d.name.value, IncidentCount(incidents, d.code.value))
    ensures r.Success? ==> forall d :: d in districts && Complete(d) ==>
      DistrictCount(d.name.value, IncidentCount(incidents, d.code.value)) in r.value
  {
    var regions := RegionsTuple(districts);
    RegionsCodesOccur(incidents, districts);
    BarsFromRows(incidents, districts);
    RowsHaveBars(incidents, districts);
    assert |regions| == |multiset(regions)| == |CompleteRegions(districts)|;
    CountsFor(incidents, regions)
  }

  /**
   For a complete table already sorted by name, the bars follow the table's
   rows: bar i is district row i's name and the incidents recorded under its code.
   */
  lemma SortedTableCounts(incidents: seq<Incident>, districts: seq<DistrictRow>)
    requires forall i :: 0 <= i < |districts| ==> Complete(districts[i])
    requires SortedBy(CompleteRegions(districts), NameOf)
    requires DistrictCounts(incidents, districts).Success?
    ensures |DistrictCounts(incidents, districts).value| == |districts|
    ensures forall i :: 0 <= i < |districts| ==>
      DistrictCounts(incidents, districts).value[i]
        == DistrictCount(districts[i].name.value, IncidentCount(incidents, districts[i].code.value))
  {
    CompleteTable(districts);
    var regions := CompleteRegions(districts);
    SortBySorted(regions, NameOf);
    assert RegionsTuple(districts) == regions;
    var bars := CountsFor(incidents, regions).value;
    assert bars == DistrictCounts(incidents, districts).value;
    forall i | 0 <= i < |districts|
      ensures bars[i] == DistrictCount(districts[i].name.value, IncidentCount(incidents, districts[i].code.value))
    {
      assert regions[i] == Region(districts[i].code.value, districts[i].name.value);
    }
  }

  /** The sum of the counts. */
  function Total(counts: seq<DistrictCount>): nat
  {
    if counts == [] then 0 else counts[0].count + Total(counts[1..])
  }

  /** The codes of the regions, in order. */
  function Codes(regions: seq<Region>): (codes: seq<string>)
    ensures |codes| == |regions|
    ensures forall i :: 0 <= i < |regions| ==> codes[i] == regions[i].code
  {
    if regions == [] then [] else [regions[0].code] + Codes(regions[1..])
  }

  /** The incident is recorded in one of the listed districts. */
  predicate InSomeDistrict(r: Incident, codes: seq<string>)
  {
    r.district.Some? && r.district.value in codes
  }

  /**
   With distinct codes, the counts add up to the incidents recorded in a listed
   district: an incident whose code has no district row (the "External"
   sentinel, a missing code) is left out, and none is counted twice.
   */
  lemma {:induction false} CountsForTotal(incidents: seq<Incident>, regions: seq<Region>)
    requires NoDuplicates(Codes(regions))
    requires CountsFor(incidents, regions).Success?
    ensures Total(CountsFor(incidents, regions).value) == |Filter(incidents, r => InSomeDistrict(r, Codes(regions)))|
  {
    var codes := Codes(regions);
    if regions == [] {
      FilterKeepsNone(incidents, r => InSomeDistrict(r, codes));
    } else {
      var rest := regions[1..];
      var counts := CountsFor(incidents, regions).value;
      assert counts == [DistrictCount(regions[0].name, IncidentCount(incidents, codes[0]))] + CountsFor(incidents, rest).value;
      assert Total(counts) == IncidentCount(incidents, codes[0]) + Total(CountsFor(incidents, rest).value);
      assert codes == [codes[0]] + Codes(rest);
      assert NoDuplicates(Codes(rest)) && codes[0] !in Codes(rest) by {
        forall i, j | 0 <= i < j < |Codes(rest)|
          ensures Codes(rest)[i] != Codes(rest)[j]
        {
          assert Codes(rest)[i] == codes[i + 1] && Codes(rest)[j] == codes[j + 1];
        }
        forall i | 0 <= i < |Codes(rest)|
          ensures Codes(rest)[i] != codes[0]
        {
          assert Codes(rest)[i] == codes[i + 1];
        }
      }
      CountsForTotal(incidents, rest);
      var first := r => InDistrict(r, codes[0]);
      var others := r => InSomeDistrict(r, Codes(rest));
      var listed := r => InSomeDistrict(r, codes);
      assert forall r :: listed(r) <==> first(r) || others(r);
      assert forall r :: !(first(r) && others(r));
      FilterDisjointCount(incidents, first, others, listed);
    }
  }

  /** The bar chart's counts add up to the incidents recorded in a district of the table. */
  lemma DistrictTotal(incidents: seq<Incident>, districts: seq<DistrictRow>)
    requires NoDuplicates(Codes(RegionsTuple(districts)))
    requires DistrictCounts(incidents, districts).Success?
    ensures Total(DistrictCounts(incidents, districts).value)
      == |Filter(incidents, r => InSomeDistrict(r, Codes(RegionsTuple(districts))))|
  {
    CountsForTotal(incidents, RegionsTuple(districts));
  }
}

=== FILE: hours.dfy ===
/**
 The "Times of Day" / "Crime Types per Time of Day" view: the rows whose HOUR
 lies in the slider's inclusive range, and the offense labels among them.
 */
module HourView {
  import opened Wrappers
  import opened Seqs
  import opened Normalizer
  import opened Offenses
  import opened Tables

  /**
   The row's hour lies in [lo, hi]. A missing hour compares false with both
   ends, as NaN does in pandas.
   */
  predicate InHours(r: Incident, lo: int, hi: int)
  {
    r.hour.Some? && lo <= r.hour.value <= hi
  }

  /** The rows kept by `(HOUR >= lo) & (HOUR <= hi)`, in table order. */
  function HourWindow(rows: seq<Incident>, lo: int, hi: int): (window: seq<Incident>)
    ensures forall r :: r in window <==> r in rows && InHours(r, lo, hi)
  {
    Filter(rows, r => InHours(r, lo, hi))
  }

  /** The window keeps every row in range as often as it occurs, and no other row. */
  lemma HourWindowCounts(rows: seq<Incident>, lo: int, hi: int, r: Incident)
    ensures multiset(HourWindow(rows, lo, hi))[r] == if InHours(r, lo, hi) then multiset(rows)[r] else 0
  {
    FilterCounts(rows, x => InHours(x, lo, hi), r);
  }

  /** The window keeps table order: splitting the table splits the window the same way. */
  lemma HourWindowOrder(a: seq<Incident>, b: seq<Incident>, lo: int, hi: int)
    ensures HourWindow(a + b, lo, hi) == HourWindow(a, lo, hi) + HourWindow(b, lo, hi)
  {
    FilterAppend(a, b, x => InHours(x, lo, hi));
  }

  /** The row has an hour at all. */
  predicate HasHour(r: Incident)
  {
    r.hour.Some?
  }

  /** With every recorded hour in 0..23, the slider's default range [0, 23] keeps every row that has an hour. */
  lemma WholeDay(rows: seq<Incident>)
    requires forall r :: r in rows && r.hour.Some? ==> 0 <= r.hour.value <= 23
    ensures HourWindow(rows, 0, 23) == Filter(rows, HasHour)
  {
    FilterExt(rows, x => InHours(x, 0, 23), HasHour);
  }

  /** With every row's hour recorded and in 0..23, the range [0, 23] keeps the whole table. */
  lemma WholeDayKeepsAll(rows: seq<Incident>)
    requires forall r :: r in rows ==> r.hour.Some? && 0 <= r.hour.value <= 23
    ensures HourWindow(rows, 0, 23) == rows
  {
    FilterKeepsAll(rows, x => InHours(x, 0, 23));
  }

  /** The row was reported in hour h. */
  predicate AtHour(r: Incident, h: int)
  {
    r.hour == Some(h)
  }

  /** The range [h, h] keeps exactly the rows of hour h. */
  lemma SingleHour(rows: seq<Incident>, h: int)
    ensures HourWindow(rows, h, h) == Filter(rows, r => AtHour(r, h))
  {
    FilterExt(rows, x => InHours(x, h, h), r => AtHour(r, h));
  }

  /** The labels listed for the range: the distinct labels of the rows in the window, first-seen first. */
  function TimesOffenses(rows: seq<Incident>, lo: int, hi: int): (labels: seq<string>)
    ensures NoDuplicates(labels)
    ensures forall l :: l in labels <==> exists r :: r in rows && InHours(r, lo, hi) && Normalize(r.description) == l
  {
    var window := HourWindow(rows, lo, hi);
    RowLabels(window);
    OffenseLabels(Descriptions(window))
  }

  /** Widening the range never drops a label from the list. */
  lemma WiderRangeKeepsLabels(rows: seq<Incident>, lo: int, hi: int, lo': int, hi': int)
    requires lo' <= lo && hi <= hi'
    ensures forall l :: l in TimesOffenses(rows, lo, hi) ==> l in TimesOffenses(rows, lo', hi')
  {
    forall l | l in TimesOffenses(rows, lo, hi)
      ensures l in TimesOffenses(rows, lo', hi')
    {
      var r :| r in rows && InHours(r, lo, hi) && Normalize(r.description) == l;
      assert InHours(r, lo', hi');
    }
  }
}

=== FILE: mapview.dfy ===
/**
 The "Locations" / "Map" view: one scatter layer per offense label, and the
 drop-down that picks which layers are drawn.
 */
module MapView {
  import opened Wrappers
  import opened Seqs
  import opened Normalizer
  import opened Offenses
  import opened Tables

  /** A map layer, reduced to the rows it plots. */
  type Layer = seq<Incident>

  /** The row has both coordinates, so it survives the `dropna` of the map table. */
  predicate HasCoordinates(r: Incident)
  {
    r.lat.Some? && r.lon.Some?
  }

  /** The rows that can be placed on the map, in table order. */
  function Located(rows: seq<Incident>): (located: seq<Incident>)
    ensures forall r :: r in located <==> r in rows && HasCoordinates(r)
  {
    Filter(rows, HasCoordinates)
  }

  /** The label a row is filed under. */
  function LabelOf(r: Incident): string
  {
    Normalize(r.description)
  }

  /**
   The offense labels of the map view. They are collected from every row of
   the incident table, including the rows without coordinates.
   */
  function MapLabels(rows: seq<Incident>): (labels: seq<string>)
    ensures NoDuplicates(labels)
    ensures forall r :: r in rows ==> LabelOf(r) in labels
    ensures forall l :: l in labels ==> exists r :: r in rows && LabelOf(r) == l
  {
    RowLabels(rows);
    OffenseLabels(Descriptions(rows))
  }

  /**
   One layer per label, in label order, holding the located rows filed under
   that label. The script builds it from its label list; `MapLabels` is the
   list it uses.
   */
  function Layers(rows: seq<Incident>, labels: seq<string>): (layers: seq<Layer>)
    ensures |layers| == |labels|
    ensures forall k, x :: 0 <= k < |labels| ==>
      (x in layers[k] <==> x in rows && HasCoordinates(x) && LabelOf(x) == labels[k])
  {
    Partition(Located(rows), LabelOf, labels)
  }

  /** Layer k is the selection of the located rows whose label is label k, in table order. */
  lemma LayerIsSelection(rows: seq<Incident>, labels: seq<string>, k: nat)
    requires k < |labels|
    ensures Layers(rows, labels)[k] == Filter(Located(rows), x => LabelOf(x) == labels[k])
  {
    PartitionPart(Located(rows), LabelOf, labels, k, x => LabelOf(x) == labels[k]);
  }

  /**
   Layer k holds exactly the located rows whose label is label k, each as
   often as it occurs in the table.
   */
  lemma LayerContents(rows: seq<Incident>, labels: seq<string>, k: nat, r: Incident)
    requires k < |labels|
    ensures r in Layers(rows, labels)[k] <==> r in rows && HasCoordinates(r) && LabelOf(r) == labels[k]
    ensures multiset(Layers(rows, labels)[k])[r] == if HasCoordinates(r) && LabelOf(r) == labels[k] then multiset(rows)[r] else 0
  {
    var wanted := labels[k];
    var located := Located(rows);
    LayerIsSelection(rows, labels, k);
    assert Layers(rows, labels)[k] == Filter(located, x => LabelOf(x) == wanted);
    FilterCounts(located, x => LabelOf(x) == wanted, r);
    FilterCounts(rows, HasCoordinates, r);
  }

  /**
   With distinct labels that cover every located row, each located row lands
   in exactly one layer: the layer sizes add up to the located rows.
   */
  lemma {:induction false} LayersCover(rows: seq<Incident>, labels: seq<string>)
    requires NoDuplicates(labels)
    requires forall r :: r in rows && HasCoordinates(r) ==> LabelOf(r) in labels
    ensures TotalSize(Layers(rows, labels)) == |Located(rows)|
  {
    var located := Located(rows);
    PartitionTotal(located, LabelOf, labels, HasCoordinates);
    FilterKeepsAll(located, HasCoordinates);
  }

  /** The map's own labels cover every located row, so its layers hold all of them. */
  lemma LayersCoverLocated(rows: seq<Incident>)
    ensures TotalSize(Layers(rows, MapLabels(rows))) == |Located(rows)|
  {
    LayersCover(rows, MapLabels(rows));
  }

  /** The entries of the offense drop-down: a blank entry, then the labels. */
  function Options(labels: seq<string>): seq<string>
  {
    [""] + labels
  }

  /** The map drawn for drop-down entry i: every layer for the blank entry, layer i-1 otherwise. */
  function MapFor(layers: seq<Layer>, i: nat): seq<Layer>
    requires i <= |layers|
  {
    if i == 0 then layers else [layers[i - 1]]
  }

  /**
   The maps drawn, as the script draws them: it walks the first n drop-down
   entries and draws one map for every entry equal to the selection.
   */
  function DrawnUpTo(labels: seq<string>, layers: seq<Layer>, selection: string, n: nat): (maps: seq<seq<Layer>>)
    requires |layers| == |labels| && n <= |labels| + 1
    ensures |maps| <= n
    ensures forall m :: m in maps ==> exists i :: 0 <= i < n && Options(labels)[i] == selection && m == MapFor(layers, i)
  {
    if n == 0 then []
    else
      DrawnUpTo(labels, layers, selection, n - 1)
        + (if Options(labels)[n - 1] == selection then [MapFor(layers, n - 1)] else [])
  }

  /** The positions, among the first n drop-down entries, of the entries equal to the selection, in entry order. */
  function Matching(labels: seq<string>, selection: string, n: nat): (idx: seq<nat>)
    requires n <= |labels| + 1
    ensures forall i: nat :: i in idx <==> i < n && Options(labels)[i] == selection
    ensures forall a, b :: 0 <= a < b < |idx| ==> idx[a] < idx[b]
  {
    if n == 0 then []
    else
      var earlier := Matching(labels, selection, n - 1);
      assert forall k :: 0 <= k < |earlier| ==> earlier[k] in earlier;
      earlier + (if Options(labels)[n - 1] == selection then [n - 1] else [])
  }

  /** The walk over the first n entries draws, in order, the map of each matching entry. */
  lemma {:induction false} DrawnUpToMatching(labels: seq<string>, layers: seq<Layer>, selection: string, n: nat)
    requires |layers| == |labels| && n <= |labels| + 1
    ensures var idx := Matching(labels, selection, n);
      |DrawnUpTo(labels, layers, selection, n)| == |idx|
      && forall k :: 0 <= k < |idx| ==> idx[k] <= |labels| && DrawnUpTo(labels, layers, selection, n)[k] == MapFor(layers, idx[k])
  {
    if n > 0 {
      DrawnUpToMatching(labels, layers, selection, n - 1);
    }
  }

  /** Every map the script draws for the current selection of the drop-down. */
  function MapsDrawn(labels: seq<string>, layers: seq<Layer>, selection: string): (maps: seq<seq<Layer>>)
    requires |layers| == |labels|
    ensures |maps| <= |labels| + 1
    ensures forall m :: m in maps ==>
      exists i :: 0 <= i <= |labels| && Options(labels)[i] == selection && m == MapFor(layers, i)
    ensures selection !in Options(labels) ==> maps == []
    ensures var idx := Matching(labels, selection, |labels| + 1);
      |maps| == |idx| && forall k :: 0 <= k < |idx| ==> idx[k] <= |labels| && maps[k] == MapFor(layers, idx[k])
  {
    var maps := DrawnUpTo(labels, layers, selection, |labels| + 1);
    DrawnUpToMatching(labels, layers, selection, |labels| + 1);
    assert selection !in Options(labels) ==> maps == [] by {
      if selection !in Options(labels) {
        DrawnUpToNone(labels, layers, selection, 0, |labels| + 1);
      }
    }
    maps
  }

  /** Entries that differ from the selection draw nothing. */
  lemma {:induction false} DrawnUpToNone(labels: seq<string>, layers: seq<Layer>, selection: string, lo: nat, n: nat)
    requires |layers| == |labels| && lo <= n <= |labels| + 1
    requires forall i :: lo <= i < n ==> Options(labels)[i] != selection
    ensures DrawnUpTo(labels, layers, selection, n) == DrawnUpTo(labels, layers, selection, lo)
  {
    if n > lo {
      DrawnUpToNone(labels, layers, selection, lo, n - 1);
    }
  }

  /** When only entry i equals the selection, the script draws exactly the map for entry i. */
  lemma OnlyMatchDrawn(labels: seq<string>, layers: seq<Layer>, selection: string, i: nat)
    requires |layers| == |labels| && i <= |labels|
    requires forall k :: 0 <= k <= |labels| ==> (Options(labels)[k] == selection <==> k == i)
    ensures MapsDrawn(labels, layers, selection) == [MapFor(layers, i)]
  {
    DrawnUpToNone(labels, layers, selection, 0, i);
    DrawnUpToNone(labels, layers, selection, i + 1, |labels| + 1);
  }

  /** Selecting the blank entry draws one map with every layer, provided no label is blank. */
  lemma SelectBlank(labels: seq<string>, layers: seq<Layer>)
    requires |layers| == |labels|
    requires "" !in labels
    ensures MapsDrawn(labels, layers, "") == [layers]
  {
    OnlyMatchDrawn(labels, layers, "", 0);
  }

  /** Selecting the non-blank label i-1 (entry i) draws one map holding only layer i-1. */
  lemma SelectLabel(labels: seq<string>, layers: seq<Layer>, i: nat)
    requires |layers| == |labels| && NoDuplicates(labels)
    requires 1 <= i <= |labels| && labels[i - 1] != ""
    ensures MapsDrawn(labels, layers, labels[i - 1]) == [[layers[i - 1]]]
  {
    OnlyMatchDrawn(labels, layers, labels[i - 1], i);
  }

  /**
   As written, a blank label (a whitespace-only description normalises to "")
   duplicates the blank entry, and selecting it draws two maps: every layer,
   then the blank label's own layer.
   */
  lemma BlankLabelDrawsTwice(labels: seq<string>, layers: seq<Layer>, j: nat)
    requires |layers| == |labels| && NoDuplicates(labels)
    requires j < |labels| && labels[j] == ""
    ensures MapsDrawn(labels, layers, "") == [layers, [layers[j]]]
  {
    DrawnUpToNone(labels, layers, "", 1, j + 1);
    DrawnUpToNone(labels, layers, "", j + 2, |labels| + 1);
  }

  /** A table with one whitespace-only description yields a blank label, and the blank selection draws two maps. */
  lemma BlankDescriptionExample()
    ensures var rows := [Incident("  ", None, Some(42.3), Some(-71.1), Some(3))];
      MapLabels(rows) == [""]
      && MapsDrawn(MapLabels(rows), Layers(rows, MapLabels(rows)), "")
         == [Layers(rows, MapLabels(rows)), [Layers(rows, MapLabels(rows))[0]]]
  {
    var rows := [Incident("  ", None, Some(42.3), Some(-71.1), Some(3))];
    var d := rows[0].description;
    assert Normalize(d) == "" by {
      assert Lower(d) == d;
      assert Title(d) == d;
      assert LeadingSpaces(d) == 2;
    }
    assert Descriptions(rows) == [d];
    assert LabelsOf([d]) == [""];
    assert [""][..0] == [];
    assert FirstSeen([""]) == [""];
    BlankLabelDrawsTwice(MapLabels(rows), Layers(rows, MapLabels(rows)), 0);
  }

  /**
   The map for the selection as intended: the first drop-down entry equal to
   it decides, so exactly one map is drawn for any entry.
   */
  function MapShown(labels: seq<string>, layers: seq<Layer>, selection: string): (shown: Option<seq<Layer>>)
    requires |layers| == |labels|
    ensures shown.Some? <==> selection in Options(labels)
    ensures selection == "" ==> shown == Some(layers)
  {
    if selection in Options(labels) then Some(MapFor(layers, FirstIndex(Options(labels), selection))) else None
  }

  /**
   With distinct entries the intended map is the one the script draws: entry 0
   shows every layer and entry i >= 1 shows layer i-1 alone.
   */
  lemma MapShownByEntry(labels: seq<string>, layers: seq<Layer>, i: nat)
    requires |layers| == |labels| && NoDuplicates(labels) && "" !in labels
    requires i <= |labels|
    ensures MapShown(labels, layers, Options(labels)[i]) == Some(MapFor(layers, i))
    ensures MapsDrawn(labels, layers, Options(labels)[i]) == [MapFor(layers, i)]
  {
    var options := Options(labels);
    assert NoDuplicates(options) by {
      forall a, b | 0 <= a < b < |options|
        ensures options[a] != options[b]
      {
        if a == 0 {
          assert options[b] == labels[b - 1];
        }
      }
    }
    FirstIndexOfDistinct(options, i);
    OnlyMatchDrawn(labels, layers, options[i], i);
  }
}

=== FILE: normalize.dfy ===
/**
 The offense-label normaliser of the dashboard, `c.lower().title().strip()`,
 over ASCII text: Python's case mappings and its notions of "cased" and
 "whitespace" restricted to the first 128 code points.
 */
module Normalizer {

  predicate IsUpper(c: char) { 'A' <= c <= 'Z' }

  predicate IsLower(c: char) { 'a' <= c <= 'z' }

  /** Python's cased characters, restricted to ASCII: the letters. */
  predicate IsCased(c: char) { IsUpper(c) || IsLower(c) }

  /** Python's `str.isspace` on ASCII: space, tab through carriage return, and the separators U+001C..U+001F. */
  predicate IsSpace(c: char) { c == ' ' || '\t' <= c <= '\r' || '\U{1C}' <= c <= '\U{1F}' }

  function LowerChar(c: char): char { if IsUpper(c) then (c as int + 32) as char else c }

  function UpperChar(c: char): char { if IsLower(c) then (c as int - 32) as char else c }

  /** `str.lower`: every letter in lower case, every other character unchanged. */
  function Lower(s: string): (r: string)
    ensures |r| == |s|
    ensures forall i :: 0 <= i < |r| ==> !IsUpper(r[i]) && UpperChar(r[i]) == UpperChar(s[i])
  {
    seq(|s|, i requires 0 <= i < |s| => LowerChar(s[i]))
  }

  /** The character `str.title` writes for `c`: lower case right after a cased character, upper case otherwise. */
  function TitleChar(c: char, afterCased: bool): char
  {
    if afterCased then LowerChar(c) else UpperChar(c)
  }

  /**
   `str.title`: a letter is upper-cased when the character before it in the
   input is not cased (or it comes first) and lower-cased otherwise.
   */
  function Title(s: string): (r: string)
    ensures |r| == |s|
  {
    seq(|s|, i requires 0 <= i < |s| => TitleChar(s[i], i > 0 && IsCased(s[i - 1])))
  }

  /** The number of whitespace characters `s` starts with. */
  function LeadingSpaces(s: string): (n: nat)
    ensures n <= |s|
    ensures forall i :: 0 <= i < n ==> IsSpace(s[i])
    ensures n < |s| ==> !IsSpace(s[n])
  {
    if s != [] && IsSpace(s[0]) then 1 + LeadingSpaces(s[1..]) else 0
  }

  /** The number of whitespace characters `s` ends with. */
  function TrailingSpaces(s: string): (n: nat)
    ensures n <= |s|
    ensures forall i :: |s| - n <= i < |s| ==> IsSpace(s[i])
    ensures n < |s| ==> !IsSpace(s[|s| - 1 - n])
  {
    if s != [] && IsSpace(s[|s| - 1]) then 1 + TrailingSpaces(s[..|s| - 1]) else 0
  }

  /** `str.strip()`: the text between the leading and the trailing whitespace. */
  function Strip(s: string): (r: string)
    ensures |r| <= |s|
    ensures r != [] ==> !IsSpace(r[0]) && !IsSpace(r[|r| - 1])
    ensures exists a, b ::
      (0 <= a <= b <= |s| && r == s[a..b]
       && (forall i :: 0 <= i < a ==> IsSpace(s[i]))
       && (forall i :: b <= i < |s| ==> IsSpace(s[i])))
  {
    var a := LeadingSpaces(s);
    var b := |s| - TrailingSpaces(s[a..]);
    assert b > a ==> s[a..][b - a - 1] == s[b - 1];
    assert forall i :: b <= i < |s| ==> s[i] == s[a..][i - a];
    assert forall i :: 0 <= i < a ==> IsSpace(s[i]);
    assert forall i :: b <= i < |s| ==> IsSpace(s[i]);
    assert 0 <= a <= b <= |s|;
    s[a..b]
  }

  /** The label an offense description is filed under: `c.lower().title().strip()`. */
  function Normalize(s: string): (n: string)
    ensures |n| <= |s|
    ensures n != [] ==> !IsSpace(n[0]) && !IsSpace(n[|n| - 1])
  {
    Strip(Title(Lower(s)))
  }

  /** Lower-casing first changes nothing `str.title` would produce. */
  lemma TitleAfterLower(s: string)
    ensures Title(Lower(s)) == Title(s)
  {
    forall i | 0 <= i < |s|
      ensures Title(Lower(s))[i] == Title(s)[i]
    {
      if i > 0 {
        assert IsCased(Lower(s)[i - 1]) == IsCased(s[i - 1]);
      }
    }
  }

  /** `str.title` is idempotent. */
  lemma TitleIdempotent(s: string)
    ensures Title(Title(s)) == Title(s)
  {
    forall i | 0 <= i < |s|
      ensures Title(Title(s))[i] == Title(s)[i]
    {
      if i > 0 {
        assert IsCased(Title(s)[i - 1]) == IsCased(s[i - 1]);
      }
    }
  }

  /** Title-casing a slice that starts at a word boundary gives the same slice of the title-cased text. */
  lemma TitleSlice(s: string, a: nat, b: nat)
    requires a <= b <= |s|
    requires a == 0 || !IsCased(s[a - 1])
    ensures Title(s[a..b]) == Title(s)[a..b]
  {
    forall j | 0 <= j < b - a
      ensures Title(s[a..b])[j] == Title(s)[a..b][j]
    {
      if j > 0 {
        assert s[a..b][j - 1] == s[a + j - 1];
      }
    }
  }

  /** Stripping the stripped text removes nothing more. */
  lemma StripIdempotent(s: string)
    ensures Strip(Strip(s)) == Strip(s)
  {
    var r := Strip(s);
    assert LeadingSpaces(r) == 0;
    assert r[0..] == r;
    assert TrailingSpaces(r) == 0;
    assert r[0..|r|] == r;
  }

  /** Where `str.strip()` cuts: the kept slice starts right after whitespace, or at the start. */
  lemma StripCut(s: string) returns (a: nat, b: nat)
    ensures a <= b <= |s| && Strip(s) == s[a..b]
    ensures a == 0 || IsSpace(s[a - 1])
  {
    a := LeadingSpaces(s);
    b := |s| - TrailingSpaces(s[a..]);
  }

  /** Stripping title-cased text leaves it title-cased: the cut falls at a word boundary. */
  lemma StripKeepsTitled(t: string)
    requires Title(t) == t
    ensures Title(Strip(t)) == Strip(t)
  {
    var a, b := StripCut(t);
    assert a == 0 || !IsCased(t[a - 1]);
    TitleSlice(t, a, b);
  }

  /** A normalised label is its own title-cased form. */
  lemma NormalizedIsTitled(s: string)
    ensures Title(Normalize(s)) == Normalize(s)
  {
    TitleIdempotent(Lower(s));
    StripKeepsTitled(Title(Lower(s)));
  }

  /** Normalising a label that is already normalised returns it unchanged. */
  lemma NormalizeIdempotent(s: string)
    ensures Normalize(Normalize(s)) == Normalize(s)
  {
    var n := Normalize(s);
    NormalizedIsTitled(s);
    TitleAfterLower(n);
    StripIdempotent(Title(Lower(s)));
  }

  /** Case and trailing blanks do not change the label: "theft " is filed under "Theft". */
  lemma NormalizeTrailingBlank()
    ensures Normalize("theft ") == "Theft"
  {
    var s := "theft ";
    var lower := Lower(s);
    assert lower == "theft ";
    var title := Title(lower);
    assert title == "Theft ";
    assert LeadingSpaces(title) == 0;
    assert TrailingSpaces(title) == 1;
    assert title[0..] == title;
    assert title[0..5] == "Theft";
  }

  /** Upper-case input is filed under its title-cased form: "THEFT" becomes "Theft". */
  lemma NormalizeUpperCase()
    ensures Normalize("THEFT") == "Theft"
  {
    var s := "THEFT";
    var lower := Lower(s);
    assert lower == "theft";
    var title := Title(lower);
    assert title == "Theft";
    assert LeadingSpaces(title) == 0;
    assert TrailingSpaces(title) == 0;
    assert title[0..5] == title;
  }
}

=== FILE: offenses.dfy ===
/**
 The offense-type list of the map and time-of-day views: each description is
 normalised and appended to the list unless that label is already listed.
 */
module Offenses {
  import opened Seqs
  import opened Normalizer
  import opened Tables

  /**
   The distinct elements of `xs` in the order of their first occurrence: what
   appending each element that is not yet listed leaves behind.
   */
  function FirstSeen<T(==,!new)>(xs: seq<T>): (r: seq<T>)
    ensures NoDuplicates(r)
    ensures forall x :: x in r <==> x in xs
  {
    if xs == [] then []
    else
      var prev := FirstSeen(xs[..|xs| - 1]);
      assert forall x :: x in xs[..|xs| - 1] ==> x in xs;
      if xs[|xs| - 1] in prev then prev else prev + [xs[|xs| - 1]]
  }

  /** Appending an element lists it at the end, unless it is listed already. */
  lemma FirstSeenSnoc<T(!new)>(xs: seq<T>, x: T)
    ensures FirstSeen(xs + [x]) == if x in FirstSeen(xs) then FirstSeen(xs) else FirstSeen(xs) + [x]
  {
    assert (xs + [x])[..|xs|] == xs;
  }

  /** Listed elements appear in the order of their first occurrence in the input. */
  lemma {:induction false} FirstSeenOrder<T(!new)>(xs: seq<T>, i: nat, j: nat)
    requires i < j < |FirstSeen(xs)|
    ensures FirstIndex(xs, FirstSeen(xs)[i]) < FirstIndex(xs, FirstSeen(xs)[j])
  {
    var init := xs[..|xs| - 1];
    var y := xs[|xs| - 1];
    var prev := FirstSeen(init);
    assert xs == init + [y];
    FirstIndexAppend(init, y, prev[i]);
    if j < |prev| {
      FirstSeenOrder(init, i, j);
      FirstIndexAppend(init, y, prev[j]);
    } else {
      assert FirstSeen(xs)[j] == y && y !in init;
    }
  }

  /** Element a is listed before element b exactly when a first occurs before b in the input. */
  lemma FirstSeenOrderIff<T(!new)>(xs: seq<T>, a: T, b: T)
    requires a in xs && b in xs
    ensures a in FirstSeen(xs) && b in FirstSeen(xs)
    ensures FirstIndex(FirstSeen(xs), a) < FirstIndex(FirstSeen(xs), b) <==> FirstIndex(xs, a) < FirstIndex(xs, b)
  {
    var r := FirstSeen(xs);
    var i := FirstIndex(r, a);
    var j := FirstIndex(r, b);
    if i < j {
      FirstSeenOrder(xs, i, j);
    } else if j < i {
      FirstSeenOrder(xs, j, i);
    }
  }

  /** The label of every description, position by position. */
  function LabelsOf(descriptions: seq<string>): (labels: seq<string>)
    ensures |labels| == |descriptions|
    ensures forall i :: 0 <= i < |descriptions| ==> labels[i] == Normalize(descriptions[i])
  {
    Map(Normalize, descriptions)
  }

  /** One more description adds its label at the end. */
  lemma LabelsOfPrefix(descriptions: seq<string>, k: nat)
    requires k < |descriptions|
    ensures LabelsOf(descriptions[..k + 1]) == LabelsOf(descriptions[..k]) + [Normalize(descriptions[k])]
  {
    MapPrefix(Normalize, descriptions, k);
  }

  /** The distinct labels of the descriptions, in the order they are first met. */
  function OffenseLabels(descriptions: seq<string>): (labels: seq<string>)
    ensures NoDuplicates(labels)
    ensures forall l :: l in labels <==> exists i :: 0 <= i < |descriptions| && Normalize(descriptions[i]) == l
  {
    var all := LabelsOf(descriptions);
    assert forall i :: 0 <= i < |descriptions| ==> all[i] == Normalize(descriptions[i]);
    FirstSeen(all)
  }

  /** The labels of a table's descriptions are the labels its rows carry. */
  lemma RowLabels(rows: seq<Incident>)
    ensures forall l :: l in OffenseLabels(Descriptions(rows)) <==> exists r :: r in rows && Normalize(r.description) == l
  {
    var ds := Descriptions(rows);
    var labels := OffenseLabels(ds);
    forall l | l in labels
      ensures exists r :: r in rows && Normalize(r.description) == l
    {
      var i :| 0 <= i < |ds| && Normalize(ds[i]) == l;
      assert rows[i] in rows && Normalize(rows[i].description) == l;
    }
    forall l | exists r :: r in rows && Normalize(r.description) == l
      ensures l in labels
    {
      var r :| r in rows && Normalize(r.description) == l;
      var i :| 0 <= i < |rows| && rows[i] == r;
      assert Normalize(ds[i]) == l;
    }
  }

  /**
   The loop that builds the list: normalise each description and append the
   label when it is not already in the list.
   */
  method CollectOffenseLabels(descriptions: seq<string>) returns (labels: seq<string>)
    ensures labels == OffenseLabels(descriptions)
    ensures NoDuplicates(labels)
    ensures forall l :: l in labels <==> exists i :: 0 <= i < |descriptions| && Normalize(descriptions[i]) == l
  {
    labels := [];
    for k := 0 to |descriptions|
      invariant labels == FirstSeen(LabelsOf(descriptions[..k]))
    {
      var name := Normalize(descriptions[k]);
      LabelsOfPrefix(descriptions, k);
      FirstSeenSnoc(LabelsOf(descriptions[..k]), name);
      if name !in labels {
        labels := labels + [name];
      }
    }
    assert descriptions[..|descriptions|] == descriptions;
  }

  /** Repeats of an element already listed add nothing: [a, a, b, a] lists a, then b. */
  lemma FirstSeenRepeats<T(!new)>(a: T, b: T)
    requires a != b
    ensures FirstSeen([a, a, b, a]) == [a, b]
  {
    assert [a, a, b, a][..3] == [a, a, b];
    assert [a, a, b][..2] == [a, a];
    assert [a, a][..1] == [a];
    assert [a][..0] == [];
    assert FirstSeen([a]) == [a];
    assert FirstSeen([a, a]) == [a];
    assert FirstSeen([a, a, b]) == [a, b];
  }
}

=== FILE: pie.dfy ===
/**
 The "Common Types" view: a pie of incident counts per district, either for
 every district ("All") or for the districts chosen in a multiselect.
 The per-code counts (`groupby("DISTRICT").count()` with "External" dropped)
 and the "District Name" column of the district table are inputs; the view
 pairs them by position.
 */
module PieView {
  import opened Seqs
  import opened Sorting
  import opened Tables
  import opened Districts

  /** The data handed to the pie chart: slice values and their labels, position by position. */
  datatype Pie = Pie(values: seq<nat>, names: seq<string>)

  /** The multiselect entry that stands for every district. */
  const AllEntry: string := "All"

  function Shorter(a: nat, b: nat): nat { if a <= b then a else b }

  /** The multiselect's entries: "All", then the district names in sorted order. */
  function Choices(names: seq<string>): (entries: seq<string>)
    ensures |entries| == |names| + 1 && entries[0] == AllEntry
    ensures SortedBy(entries[1..], Id) && multiset(entries[1..]) == multiset(names)
  {
    var sorted := SortBy(names, Id);
    assert ([AllEntry] + sorted)[1..] == sorted;
    [AllEntry] + sorted
  }

  /**
   The values the inner loop appends for one chosen name: vals[i] for every
   position i whose key equals it, in position order.
   */
  function ValuesWhere(target: string, keys: seq<string>, vals: seq<nat>): (r: seq<nat>)
    requires |keys| == |vals|
    ensures target !in keys ==> r == []
    ensures multiset(keys)[target] == 1 ==> r == [vals[FirstIndex(keys, target)]]
  {
    if keys == [] then []
    else
      assert keys == [keys[0]] + keys[1..];
      assert keys[0] == target && multiset(keys)[target] == 1 ==> target !in keys[1..];
      (if keys[0] == target then [vals[0]] else []) + ValuesWhere(target, keys[1..], vals[1..])
  }

  /** The loop over the chosen names: the values found for each, one chosen name after another. */
  function LookupEach(chosen: seq<string>, keys: seq<string>, vals: seq<nat>): seq<nat>
    requires |keys| == |vals|
  {
    if chosen == [] then []
    else ValuesWhere(chosen[0], keys, vals) + LookupEach(chosen[1..], keys, vals)
  }

  /** When every chosen name occurs exactly once among the keys, each chosen name yields exactly its own value. */
  lemma {:induction false} LookupEachExact(chosen: seq<string>, keys: seq<string>, vals: seq<nat>)
    requires |keys| == |vals|
    requires forall c :: c in chosen ==> c in keys && multiset(keys)[c] == 1
    ensures |LookupEach(chosen, keys, vals)| == |chosen|
    ensures forall d :: 0 <= d < |chosen| ==> LookupEach(chosen, keys, vals)[d] == vals[FirstIndex(keys, chosen[d])]
  {
    if chosen != [] {
      var rest := chosen[1..];
      assert forall c :: c in rest ==> c in chosen;
      LookupEachExact(rest, keys, vals);
      var head := ValuesWhere(chosen[0], keys, vals);
      assert head == [vals[FirstIndex(keys, chosen[0])]];
      var all := LookupEach(chosen, keys, vals);
      assert all == head + LookupEach(rest, keys, vals);
      forall d | 0 < d < |chosen|
        ensures all[d] == vals[FirstIndex(keys, chosen[d])]
      {
        assert all[d] == LookupEach(rest, keys, vals)[d - 1];
        assert rest[d - 1] == chosen[d];
      }
    }
  }

  /** A name that occurs once among the names occurs once in `sorted(names)`. */
  lemma SortedKeepsOnce(chosen: seq<string>, names: seq<string>)
    requires forall c :: c in chosen ==> c in names && multiset(names)[c] == 1
    ensures forall c :: c in chosen ==> c in SortBy(names, Id) && multiset(SortBy(names, Id))[c] == 1
  {
    var sorted := SortBy(names, Id);
    forall c | c in chosen
      ensures c in sorted && multiset(sorted)[c] == 1
    {
      assert c in multiset(sorted);
    }
  }

  /**
   The values of the chosen districts as the script computes them: each
   chosen name is looked up in `sorted(names)` and the value at that position
   of `vals` is taken. A chosen name that occurs once among the names gives
   exactly one value, the one at its position in the sorted list.
   */
  function SelectedValues(chosen: seq<string>, names: seq<string>, vals: seq<nat>): (r: seq<nat>)
    requires |names| == |vals|
    ensures (forall c :: c in chosen ==> c in names && multiset(names)[c] == 1) ==>
      |r| == |chosen| &&
      forall d :: 0 <= d < |chosen| ==>
        chosen[d] in SortBy(names, Id) && r[d] == vals[FirstIndex(SortBy(names, Id), chosen[d])]
  {
    var sorted := SortBy(names, Id);
    var r := LookupEach(chosen, sorted, vals);
    assert (forall c :: c in chosen ==> c in names && multiset(names)[c] == 1) ==>
      |r| == |chosen| && forall d :: 0 <= d < |chosen| ==> chosen[d] in sorted && r[d] == vals[FirstIndex(sorted, chosen[d])]
    by {
      if forall c :: c in chosen ==> c in names && multiset(names)[c] == 1 {
        SortedKeepsOnce(chosen, names);
        LookupEachExact(chosen, sorted, vals);
      }
    }
    r
  }

  /**
   The values of the chosen districts as intended: a chosen name that occurs
   once among the names takes the value zipped with it.
   */
  function PairedValues(chosen: seq<string>, names: seq<string>, vals: seq<nat>): (r: seq<nat>)
    requires |names| == |vals|
    ensures (forall c :: c in chosen ==> c in names && multiset(names)[c] == 1) ==>
      |r| == |chosen| &&
      forall d :: 0 <= d < |chosen| ==> r[d] == vals[FirstIndex(names, chosen[d])]
  {
    var r := LookupEach(chosen, names, vals);
    assert (forall c :: c in chosen ==> c in names && multiset(names)[c] == 1) ==>
      |r| == |chosen| && forall d :: 0 <= d < |chosen| ==> r[d] == vals[FirstIndex(names, chosen[d])]
    by {
      if forall c :: c in chosen ==> c in names && multiset(names)[c] == 1 {
        LookupEachExact(chosen, names, vals);
      }
    }
    r
  }

  /**
   The pie as the script draws it. The names and counts are zipped (so both
   are cut to the shorter length); with "All" chosen every pair is shown,
   otherwise the chosen names with the values found for them.
   */
  function PieChart(districtNames: seq<string>, groupCounts: seq<nat>, chosen: seq<string>): (pie: Pie)
    ensures AllEntry in chosen ==> pie.names == districtNames[..Shorter(|districtNames|, |groupCounts|)]
    ensures AllEntry in chosen ==> pie.values == groupCounts[..Shorter(|districtNames|, |groupCounts|)]
    ensures AllEntry !in chosen ==> pie.names == chosen
    ensures var names := districtNames[..Shorter(|districtNames|, |groupCounts|)];
      AllEntry !in chosen && (forall c :: c in chosen ==> c in names && multiset(names)[c] == 1) ==>
        |pie.values| == |chosen| &&
        forall d :: 0 <= d < |chosen| ==>
          chosen[d] in SortBy(names, Id) && pie.values[d] == groupCounts[FirstIndex(SortBy(names, Id), chosen[d])]
  {
    var m := Shorter(|districtNames|, |groupCounts|);
    var names := districtNames[..m];
    var vals := groupCounts[..m];
    if AllEntry in chosen then Pie(vals, names) else Pie(SelectedValues(chosen, names, vals), chosen)
  }

  /** The pie with each chosen district given the value zipped with its name. */
  function PieChartCorrected(districtNames: seq<string>, groupCounts: seq<nat>, chosen: seq<string>): (pie: Pie)
    ensures AllEntry in chosen ==> pie == PieChart(districtNames, groupCounts, chosen)
    ensures AllEntry !in chosen ==> pie.names == chosen
    ensures var names := districtNames[..Shorter(|districtNames|, |groupCounts|)];
      AllEntry !in chosen && (forall c :: c in chosen ==> c in names && multiset(names)[c] == 1) ==>
        |pie.values| == |chosen| &&
        forall d :: 0 <= d < |chosen| ==> pie.values[d] == groupCounts[FirstIndex(names, chosen[d])]
  {
    var m := Shorter(|districtNames|, |groupCounts|);
    var names := districtNames[..m];
    var vals := groupCounts[..m];
    if AllEntry in chosen then Pie(vals, names) else Pie(PairedValues(chosen, names, vals), chosen)
  }

  /** The lookup in `sorted(names)` finds the right values whenever the names are already sorted. */
  lemma SortedNamesAgree(chosen: seq<string>, names: seq<string>, vals: seq<nat>)
    requires |names| == |vals| && SortedBy(names, Id)
    ensures SelectedValues(chosen, names, vals) == PairedValues(chosen, names, vals)
  {
    SortBySorted(names, Id);
  }

  /** Two names out of order come back swapped from `sorted`. */
  lemma SortSwapsPair(names: seq<string>)
    requires |names| == 2 && !LexLe(names[0], names[1])
    ensures SortBy(names, Id) == [names[1], names[0]]
  {
    var b := names[1..];
    assert b[1..] == [];
    assert SortBy(b, Id) == Insert(b[0], [], Id) == [names[1]];
    assert !LexLe(Id(names[0]), Id(names[1]));
    assert [names[1]][1..] == [];
    assert Insert(names[0], [names[1]], Id) == [names[1]] + Insert(names[0], [], Id);
  }

  /**
   Names listed out of order make the lookup take another district's count:
   with names ["B", "A"] counted [1, 2], choosing "A" shows 1 where 2 is meant.
   */
  lemma UnsortedNamesMislabel(names: seq<string>, counts: seq<nat>, chosen: seq<string>)
    requires |names| == 2 && |counts| == 2 && !LexLe(names[0], names[1])
    requires chosen == [names[1]] && names[1] != AllEntry
    ensures PieChart(names, counts, chosen) == Pie([counts[0]], chosen)
    ensures PieChartCorrected(names, counts, chosen) == Pie([counts[1]], chosen)
  {
    LexLeTotal(names[0], names[1]);
    assert names[0] != names[1];
    assert AllEntry !in chosen;
    assert names[..2] == names && counts[..2] == counts;
    SortSwapsPair(names);
    var sorted := [names[1], names[0]];
    assert NoDuplicates(sorted) && NoDuplicates(names);
    assert FirstIndex(sorted, chosen[0]) == 0;
    assert FirstIndex(names, chosen[0]) == 1;
    assert ValuesWhere(chosen[0], sorted, counts) == [counts[0]];
    assert ValuesWhere(chosen[0], names, counts) == [counts[1]];
    assert chosen[1..] == [];
    assert LookupEach([], sorted, counts) == [] && LookupEach([], names, counts) == [];
    assert LookupEach(chosen, sorted, counts) == ValuesWhere(chosen[0], sorted, counts) + LookupEach([], sorted, counts);
    assert LookupEach(chosen, names, counts) == ValuesWhere(chosen[0], names, counts) + LookupEach([], names, counts);
    assert SelectedValues(chosen, names, counts) == [counts[0]];
    assert PairedValues(chosen, names, counts) == [counts[1]];
  }

  /** With "All" chosen and columns of equal length, the pie is every (name, count) pair. */
  lemma PieAllShowsEveryPair(districtNames: seq<string>, groupCounts: seq<nat>, chosen: seq<string>)
    requires AllEntry in chosen && |districtNames| == |groupCounts|
    ensures PieChart(districtNames, groupCounts, chosen) == Pie(groupCounts, districtNames)
  {
    assert districtNames[..|districtNames|] == districtNames;
    assert groupCounts[..|groupCounts|] == groupCounts;
  }

  /**
   "All" reproduces the bar chart exactly when the tables line up: the
   district table has no missing cell and is sorted by name, and the
   per-code counts come in the order of its rows.
   */
  lemma PieAllMatchesBarChart(incidents: seq<Incident>, districts: seq<DistrictRow>,
                              districtNames: seq<string>, groupCounts: seq<nat>, chosen: seq<string>)
    requires forall i :: 0 <= i < |districts| ==> Complete(districts[i])
    requires SortedBy(CompleteRegions(districts), NameOf)
    requires |districtNames| == |districts| && |groupCounts| == |districts|
    requires forall i :: 0 <= i < |districts| ==> districtNames[i] == districts[i].name.value
    requires forall i :: 0 <= i < |districts| ==> groupCounts[i] == IncidentCount(incidents, districts[i].code.value)
    requires DistrictCounts(incidents, districts).Success?
    requires AllEntry in chosen
    ensures |PieChart(districtNames, groupCounts, chosen).values| == |DistrictCounts(incidents, districts).value|
    ensures forall i :: 0 <= i < |DistrictCounts(incidents, districts).value| ==>
      PieChart(districtNames, groupCounts, chosen).names[i] == DistrictCounts(incidents, districts).value[i].name
      && PieChart(districtNames, groupCounts, chosen).values[i] == DistrictCounts(incidents, districts).value[i].count
  {
    SortedTableCounts(incidents, districts);
    var bars := DistrictCounts(incidents, districts).value;
    var pie := PieChart(districtNames, groupCounts, chosen);
    PieAllShowsEveryPair(districtNames, groupCounts, chosen);
    forall i | 0 <= i < |bars|
      ensures pie.names[i] == bars[i].name && pie.values[i] == bars[i].count
    {
      assert bars[i] == DistrictCount(districts[i].name.value, IncidentCount(incidents, districts[i].code.value));
    }
  }
}

=== FILE: seqs.dfy ===
/**
 Sequence operations shared by the views: boolean-mask row selection,
 first positions, duplicate freedom and the per-key split of a table.
 */
module Seqs {

  /** The elements of `s` that satisfy `p`, in their original order (a boolean-mask row selection). */
  function Filter<T(!new)>(s: seq<T>, p: T -> bool): (r: seq<T>)
    ensures |r| <= |s|
    ensures forall x :: x in r <==> x in s && p(x)
  {
    if s == [] then []
    else if p(s[0]) then [s[0]] + Filter(s[1..], p) else Filter(s[1..], p)
  }

  /** Every row that passes the mask is kept as often as it occurs; every other row is dropped. */
  lemma {:induction false} FilterCounts<T(!new)>(s: seq<T>, p: T -> bool, x: T)
    ensures multiset(Filter(s, p))[x] == if p(x) then multiset(s)[x] else 0
  {
    if s != [] {
      assert s == [s[0]] + s[1..];
      FilterCounts(s[1..], p, x);
    }
  }

  /** Selection distributes over concatenation: the rows kept keep their relative order. */
  lemma {:induction false} FilterAppend<T(!new)>(a: seq<T>, b: seq<T>, p: T -> bool)
    ensures Filter(a + b, p) == Filter(a, p) + Filter(b, p)
  {
    if a == [] {
      assert a + b == b;
    } else {
      assert (a + b)[0] == a[0];
      assert (a + b)[1..] == a[1..] + b;
      FilterAppend(a[1..], b, p);
    }
  }

  /** Two masks that agree on every row select the same rows. */
  lemma {:induction false} FilterExt<T(!new)>(s: seq<T>, p: T -> bool, q: T -> bool)
    requires forall x :: x in s ==> p(x) == q(x)
    ensures Filter(s, p) == Filter(s, q)
  {
    if s != [] {
      assert forall x :: x in s[1..] ==> x in s;
      FilterExt(s[1..], p, q);
    }
  }

  /** A mask that holds of every row keeps the whole table. */
  lemma {:induction false} FilterKeepsAll<T(!new)>(s: seq<T>, p: T -> bool)
    requires forall x :: x in s ==> p(x)
    ensures Filter(s, p) == s
  {
    if s != [] {
      assert forall x :: x in s[1..] ==> x in s;
      FilterKeepsAll(s[1..], p);
    }
  }

  /** A mask that holds of no row keeps nothing. */
  lemma {:induction false} FilterKeepsNone<T(!new)>(s: seq<T>, p: T -> bool)
    requires forall x :: x in s ==> !p(x)
    ensures Filter(s, p) == []
  {
    if s != [] {
      assert forall x :: x in s[1..] ==> x in s;
      FilterKeepsNone(s[1..], p);
    }
  }

  /** When `r` is the disjoint union of `p` and `q`, the rows `r` keeps are counted once, by `p` or by `q`. */
  lemma {:induction false} FilterDisjointCount<T(!new)>(s: seq<T>, p: T -> bool, q: T -> bool, r: T -> bool)
    requires forall x :: x in s ==> (r(x) <==> p(x) || q(x))
    requires forall x :: x in s ==> !(p(x) && q(x))
    ensures |Filter(s, r)| == |Filter(s, p)| + |Filter(s, q)|
  {
    if s != [] {
      assert forall x :: x in s[1..] ==> x in s;
      FilterDisjointCount(s[1..], p, q, r);
    }
  }

  /** `f` applied to every element, position by position (a list comprehension). */
  function Map<A, B>(f: A -> B, s: seq<A>): (r: seq<B>)
    ensures |r| == |s|
    ensures forall i :: 0 <= i < |s| ==> r[i] == f(s[i])
  {
    seq(|s|, i requires 0 <= i < |s| => f(s[i]))
  }

  /** Extending the input by one element extends the mapped sequence by its image. */
  lemma MapPrefix<A, B>(f: A -> B, s: seq<A>, k: nat)
    requires k < |s|
    ensures Map(f, s[..k + 1]) == Map(f, s[..k]) + [f(s[k])]
  {
    assert forall i :: 0 <= i < k ==> s[..k + 1][i] == s[..k][i];
  }

  /** No element occurs twice. */
  predicate NoDuplicates<T(==)>(s: seq<T>)
  {
    forall i, j :: 0 <= i < j < |s| ==> s[i] != s[j]
  }

  /** The position of the first occurrence of `x` in `s` (Python's `list.index`). */
  function FirstIndex<T(==)>(s: seq<T>, x: T): (i: nat)
    requires x in s
    ensures i < |s| && s[i] == x
    ensures forall k :: 0 <= k < i ==> s[k] != x
  {
    if s[0] == x then 0 else 1 + FirstIndex(s[1..], x)
  }

  /** In a sequence without duplicates, the element at position i is first found at i. */
  lemma FirstIndexOfDistinct<T>(s: seq<T>, i: nat)
    requires NoDuplicates(s) && i < |s|
    ensures FirstIndex(s, s[i]) == i
  {
  }

  /** Appending an element does not move the first occurrence of one already present. */
  lemma FirstIndexAppend<T>(s: seq<T>, y: T, x: T)
    requires x in s
    ensures FirstIndex(s + [y], x) == FirstIndex(s, x)
  {
    var i := FirstIndex(s, x);
    assert (s + [y])[i] == x;
    assert forall k :: 0 <= k < i ==> (s + [y])[k] == s[k];
  }

  /**
   One subset of `s` per key, in the order of `keys`: subset k holds the
   elements whose key is keys[k] (the `df[df[col] == c]` selections built in a loop).
   */
  function Partition<T(!new), K(==)>(s: seq<T>, key: T -> K, keys: seq<K>): (parts: seq<seq<T>>)
    ensures |parts| == |keys|
    ensures forall k, x :: 0 <= k < |keys| ==> (x in parts[k] <==> x in s && key(x) == keys[k])
  {
    if keys == [] then []
    else [Filter(s, x => key(x) == keys[0])] + Partition(s, key, keys[1..])
  }

  /** Subset k is exactly the selection of the rows with key keys[k], in their original order. */
  lemma {:induction false} PartitionPart<T(!new), K>(s: seq<T>, key: T -> K, keys: seq<K>, k: nat, p: T -> bool)
    requires k < |keys|
    requires forall x :: p(x) == (key(x) == keys[k])
    ensures Partition(s, key, keys)[k] == Filter(s, p)
  {
    if k == 0 {
      FilterExt(s, x => key(x) == keys[0], p);
    } else {
      PartitionPart(s, key, keys[1..], k - 1, p);
    }
  }

  /** The number of elements over all the subsets. */
  function TotalSize<T>(parts: seq<seq<T>>): nat
  {
    if parts == [] then 0 else |parts[0]| + TotalSize(parts[1..])
  }

  /**
   With distinct keys every element whose key is listed lands in exactly one
   subset, so the subsets together are as large as the selection of those elements.
   */
  lemma {:induction false} PartitionTotal<T(!new), K>(s: seq<T>, key: T -> K, keys: seq<K>, listed: T -> bool)
    requires NoDuplicates(keys)
    requires forall x :: x in s ==> (listed(x) <==> key(x) in keys)
    ensures TotalSize(Partition(s, key, keys)) == |Filter(s, listed)|
  {
    if keys == [] {
      FilterKeepsNone(s, listed);
    } else {
      var rest := x => key(x) in keys[1..];
      var first := x => key(x) == keys[0];
      assert NoDuplicates(keys[1..]);
      PartitionTotal(s, key, keys[1..], rest);
      assert forall x :: x in s ==> (listed(x) <==> first(x) || rest(x)) by {
        assert forall x :: x in s ==> (key(x) in keys <==> key(x) == keys[0] || key(x) in keys[1..]) by {
          assert keys == [keys[0]] + keys[1..];
        }
      }
      assert forall x :: !(first(x) && rest(x)) by {
        assert keys[0] !in keys[1..];
      }
      FilterDisjointCount(s, first, rest, listed);
    }
  }
}

=== FILE: sorting.dfy ===
/**
 Python's ordering of text and the sorts the dashboard relies on: `sorted`
 on a list of names and `sort_values` on the district table by name.
 */
module Sorting {

  /** Python's `a <= b` on str: lexicographic by code point, a proper prefix first. */
  predicate LexLe(a: string, b: string)
  {
    a == [] || (b != [] && (a[0] < b[0] || (a[0] == b[0] && LexLe(a[1..], b[1..]))))
  }

  lemma {:induction false} LexLeTotal(a: string, b: string)
    ensures LexLe(a, b) || LexLe(b, a)
  {
    if a != [] && b != [] && a[0] == b[0] {
      LexLeTotal(a[1..], b[1..]);
    }
  }

  lemma {:induction false} LexLeTransitive(a: string, b: string, c: string)
    requires LexLe(a, b) && LexLe(b, c)
    ensures LexLe(a, c)
  {
    if a != [] && b != [] && c != [] && a[0] == b[0] == c[0] {
      LexLeTransitive(a[1..], b[1..], c[1..]);
    }
  }

  /** The keys of `s` never decrease from left to right. */
  predicate SortedBy<T>(s: seq<T>, key: T -> string)
  {
    forall i, j :: 0 <= i < j < |s| ==> LexLe(key(s[i]), key(s[j]))
  }

  /** An element whose key is at most every key of a sorted sequence may be put in front of it. */
  lemma PrependSorted<T>(x: T, s: seq<T>, key: T -> string)
    requires SortedBy(s, key)
    requires forall y :: y in s ==> LexLe(key(x), key(y))
    ensures SortedBy([x] + s, key)
  {
    forall i, j | 0 <= i < j < |s| + 1
      ensures LexLe(key(([x] + s)[i]), key(([x] + s)[j]))
    {
      if i > 0 {
        assert ([x] + s)[i] == s[i - 1];
      }
      assert ([x] + s)[j] == s[j - 1];
    }
  }

  /** A key at most the first key of a sorted sequence is at most every key in it. */
  lemma BelowFirst<T>(x: T, s: seq<T>, key: T -> string)
    requires SortedBy(s, key) && s != [] && LexLe(key(x), key(s[0]))
    ensures forall y :: y in s ==> LexLe(key(x), key(y))
  {
    forall y | y in s
      ensures LexLe(key(x), key(y))
    {
      var j :| 0 <= j < |s| && s[j] == y;
      if j > 0 {
        LexLeTransitive(key(x), key(s[0]), key(y));
      }
    }
  }

  /** The first element of a sorted sequence stays in front when a larger key is inserted into the rest. */
  lemma FirstStaysFirst<T>(x: T, s: seq<T>, rest: seq<T>, key: T -> string)
    requires SortedBy(s, key) && s != [] && !LexLe(key(x), key(s[0]))
    requires multiset(rest) == multiset(s[1..]) + multiset{x}
    ensures forall y :: y in rest ==> LexLe(key(s[0]), key(y))
  {
    LexLeTotal(key(x), key(s[0]));
    forall y | y in rest
      ensures LexLe(key(s[0]), key(y))
    {
      assert y in multiset(rest);
      if y != x {
        assert y in multiset(s[1..]);
        var j :| 0 <= j < |s[1..]| && s[1..][j] == y;
        assert s[j + 1] == y;
      }
    }
  }

  /** Places `x` in front of the first element whose key is not below its own. */
  function Insert<T>(x: T, s: seq<T>, key: T -> string): (r: seq<T>)
    requires SortedBy(s, key)
    ensures SortedBy(r, key)
    ensures |r| == |s| + 1
    ensures multiset(r) == multiset(s) + multiset{x}
  {
    if s == [] then [x]
    else if LexLe(key(x), key(s[0])) then
      BelowFirst(x, s, key);
      PrependSorted(x, s, key);
      [x] + s
    else
      assert SortedBy(s[1..], key);
      var rest := Insert(x, s[1..], key);
      assert s == [s[0]] + s[1..];
      FirstStaysFirst(x, s, rest, key);
      PrependSorted(s[0], rest, key);
      [s[0]] + rest
  }

  /** Insertion sort by key; among equal keys the earlier element stays first. */
  function SortBy<T>(s: seq<T>, key: T -> string): (r: seq<T>)
    ensures SortedBy(r, key)
    ensures |r| == |s|
    ensures multiset(r) == multiset(s)
  {
    if s == [] then []
    else
      assert s == [s[0]] + s[1..];
      Insert(s[0], SortBy(s[1..], key), key)
  }

  /** Sorting what is already sorted changes nothing. */
  lemma {:induction false} SortBySorted<T>(s: seq<T>, key: T -> string)
    requires SortedBy(s, key)
    ensures SortBy(s, key) == s
  {
    if s != [] {
      assert SortedBy(s[1..], key);
      SortBySorted(s[1..], key);
    }
  }

  /** The key of a name is the name itself: `sorted` on a list of str. */
  function Id(s: string): string { s }
}

=== FILE: tables.dfy ===
/**
 The two tables the dashboard reads at start-up, reduced to the columns its
 views use. A missing (NaN) cell is `None`.
 */
module Tables {
  import opened Wrappers

  /**
   One row of the incident table: OFFENSE_DESCRIPTION, DISTRICT, Lat, Long
   and HOUR.
   */
  datatype Incident = Incident(
    description: string,
    district: Option<string>,
    lat: Option<real>,
    lon: Option<real>,
    hour: Option<int>)

  /** One row of the district table: "District" (the code) and "District Name". */
  datatype DistrictRow = DistrictRow(code: Option<string>, name: Option<string>)

  /** The OFFENSE_DESCRIPTION column. */
  function Descriptions(rows: seq<Incident>): (ds: seq<string>)
    ensures |ds| == |rows|
  {
    seq(|rows|, i requires 0 <= i < |rows| => rows[i].description)
  }
}

=== FILE: wrappers.dfy ===
/** Failure-carrying results for the lookups that raise in the dashboard script. */
module Wrappers {

  /** A value that may be missing: a pandas cell holding NaN is `None`. */
  datatype Option<+T> = None | Some(value: T)

  /** The outcome of a computation that may raise instead of returning. */
  datatype Result<+R, +E> = Success(value: R) | Failure(error: E)
}
